=== FILE: README.md ===
# radiotray playback core in Dafny

This project models the playback core of radiotray with its threads and audio library
taken away. There are two parts.

- The engine (`Player`, from Player.cs) owns one output device and at most one decoded
  source. `Play` stops what is playing and then opens, initializes and starts a new
  source. On any failure it disposes of the partial source and returns the error. `Stop`
  stops the device and disposes of the source. `Dispose` stops and then releases the
  device. Every engine operation returns:
  - the engine afterwards;
  - the trace of library calls it made (`Open`/`Close` of a source, and device
    `OutputStop`/`OutputInit`/`OutputStart`/`OutputRelease`);
  - the stop notices the device raised.
  `Track` replays a call trace and is an independent reference for source ownership.
  `Owns(before, calls, after)` says the trace never opens a source while holding one,
  never closes a source it does not hold, and ends holding exactly `after`.
- The worker (`PlayerThread`, from PlayerThread.cs). Callers push `Play(uri)`, `Stop` or
  `Halt` onto a stack (top at index 0) and set the wake signal; `Play` first emits
  `Loading(uri)`. In one wake cycle (`Wake`) the worker:
  - clears the signal;
  - pops commands newest first and applies each `Play`/`Stop` to the engine;
  - stops when the stack is empty or it pops `Halt`.
  After `Halt` it sets `halting`, disposes of the engine and terminates. The worker keeps
  the cached `isPlaying` flag. It forwards the engine's stop notices as `Stopped` events
  only while it is not halting.

Each library call into the audio library (constructing the decoder, `Initialize`, `Play`)
is an opaque step. Its outcome (`Ok` or `Throws(error)`) is an input: an `Attempt` per
`Play`, and a wake cycle gets `env: nat -> Attempt`, indexed by how many commands it has
applied so far. `Step`/`Next`/`Run` interleave caller pushes, wake cycles and the device
ending playback by itself as atomic steps. `Coherent` is the worker invariant that every
step keeps. While the worker runs, `isPlaying` equals whether the device plays and the
device is not released. Once it has terminated, no source is held and the device is
released.

`RunDrain` is the inner loop of `DoWork` written imperatively in its own shape, a
`while (true)` left by `break` when the pop fails or takes `Halt`. It is proved equal to
the functional `Drain`. `RunWake` is one pass of the outer loop's body after the wait,
and is proved equal to `Wake`.

Behaviour of the code that a reader might not expect:
- Commands in one cycle are applied newest first, because the buffer is a
  `ConcurrentStack` (PlayerThread.cs:43, 73, 112). Two `Play`s pushed before the worker
  wakes therefore end on the older uri (`TwoPlaysEndOnOlder`). With a wake cycle between
  the two pushes they end on the newer one.
- `Halt` leaves the commands beneath it on the stack, never applied.
- `halting` is set after the inner loop is left, just before `Dispose`
  (PlayerThread.cs:104-105). The stop notice `Dispose` raises is swallowed, so
  `isPlaying` keeps the value it had when the worker terminated (`Wake`, `ShutdownIsSilent`).
- `PlayerThread.Play` raises `Loading` on the caller's side, so it still does so after
  the worker has terminated (`TerminatedStaysSilent`).
- The output device raises its stop notice while its `Stop` call runs. So a `Play` while
  a stream is playing emits `Stopped` (without error) from the handler before its own
  `Playing` or `Stopped(error)`.

## Model

| member | source | states |
|---|---|---|
| Player.FreshIsIdle | Player.cs:12-20 | a newly constructed engine has its output device acquired and not released, holds no source and does not play, so stopping it only stops the device |
| Player.Stop | Player.cs:56-64 | the device is stopped first, the held source (if any) is disposed and dropped, nothing is opened, and a stop notice is raised exactly when the device was playing |
| Player.StopIdempotent | Player.cs:56-64 | stopping a stopped engine changes nothing, disposes of nothing and raises no notice |
| Player.Load | Player.cs:38-53 | from an idle engine: success holds the new source with the device playing; any failure returns the first thrown error, makes no later library call of the try block, and leaves the engine idle with the partial source released, which was opened exactly when construction succeeded |
| Player.Play | Player.cs:35-54 | the stop of the current stream comes first in the trace; the error returned is the first thrown one and is absent exactly when all three library calls succeed; no library call after the first one that throws is made; success holds the new source and plays; failure holds nothing and does not play; the trace never leaks or double-releases a source |
| Player.FailedPlayHoldsNothing | Player.cs:45-52 | after a failed play no source is referenced, and the new source is closed in the trace exactly when the decoder had been constructed |
| Player.Dispose | Player.cs:66-70 | Stop's calls followed by releasing the device; no source held and the device released and not playing |
| Player.TrackAppend | Player.cs:35-54 | ownership of two traces run one after the other composes, which lets Play's guarantee be built from Stop's and Load's |
| Player.Ended | Player.cs:15-19 | the device's stop notice is forwarded with its error unchanged, once, only if the device was playing; the source is kept |
| PlayerThread.StartIsCoherent | PlayerThread.cs:53-66 | the worker as DoWork begins (not halting, a fresh engine, IsPlaying at its default false, nothing pending) satisfies the invariant every later step keeps |
| PlayerThread.SubmitPlay | PlayerThread.cs:108-114 | emits exactly Loading(uri), pushes Play(uri) on top and sets the signal, changing nothing else |
| PlayerThread.SubmitStop | PlayerThread.cs:116-120 | emits nothing, pushes Stop on top and sets the signal, changing nothing else |
| PlayerThread.SubmitHalt | PlayerThread.cs:122-125 | emits nothing, pushes Halt on top and sets the signal, changing nothing else |
| PlayerThread.OnEngineStopped | PlayerThread.cs:56-66 | while halting the notice is swallowed with no change; otherwise isPlaying is cleared and one Stopped event carries the notice's error |
| PlayerThread.OnEngineStoppedAll | PlayerThread.cs:56-66 | a run of notices yields one Stopped event per notice, in order, each with that notice's error, and none at all while halting |
| PlayerThread.PlayCommand | PlayerThread.cs:80-94 | success sets isPlaying and ends with exactly one Playing(uri); failure clears it and ends with exactly one Stopped carrying the error; the only event before is the Stopped (no error) of the stream it replaced |
| PlayerThread.StopCommand | PlayerThread.cs:95-97 | Stop itself neither emits nor touches isPlaying; only the notice of a device that was playing clears isPlaying and emits Stopped without error |
| PlayerThread.Apply | PlayerThread.cs:78-98 | applying Play or Stop only changes isPlaying and the engine, keeps the engine valid, and never releases the device |
| PlayerThread.Pending | PlayerThread.cs:73-76 | the commands a drain applies are the ones above the first Halt, from the top, and none of them is Halt |
| PlayerThread.Beneath | PlayerThread.cs:75-76 | a stack that holds Halt splits into the applied commands, Halt and the commands beneath it, which stay on the stack |
| PlayerThread.Drain | PlayerThread.cs:72-99 | the inner loop leaves the signal, halting and alive as they were, keeps the engine valid and never releases the device |
| PlayerThread.DrainOrder | PlayerThread.cs:72-99 | newest first: a drain applies exactly the commands above the first Halt, leaves those beneath, and ends with no operation when the stack ran dry or with Halt when it was popped |
| PlayerThread.Wake | PlayerThread.cs:68-105 | a cycle clears the signal; if it ran dry the worker keeps waiting; if it popped Halt the worker is halting and terminated with the engine disposed; shutdown adds no event and leaves isPlaying as the drain left it, the disposal's notice being swallowed; a cycle that ran dry is exactly the drain |
| PlayerThread.RunDrain | PlayerThread.cs:72-99 | the inner loop in the source's shape (pop until the pop fails or takes Halt, then break) computes the same drain as the functional model |
| PlayerThread.RunWake | PlayerThread.cs:68-105 | one pass of the outer loop's body (reset the signal, drain, and on Halt set halting and dispose) computes the same cycle as the functional model |
| PlayerThread.DeviceEnded | PlayerThread.cs:56-66 | a playback end or fault reported by the device reaches observers as Stopped with its error and clears isPlaying, unless halting or nothing was playing; only isPlaying and the engine change, so the stack and the wake signal survive |
| PlayerThread.ApplyKeepsCoherent | PlayerThread.cs:80-97 | after a command, isPlaying agrees with whether the device plays |
| PlayerThread.DrainKeepsCoherent | PlayerThread.cs:73-99 | a whole drain by a running worker keeps isPlaying in agreement with the device |
| PlayerThread.NextKeepsCoherent | PlayerThread.cs:56-128 | every push, wake cycle and device end keeps the worker coherent; a terminated worker holds no source and its device is released |
| PlayerThread.RunKeepsCoherent | PlayerThread.cs:45-128 | every run of the system from a coherent state, such as the initial one, stays coherent |
| PlayerThreadProperties.SubmitAll | PlayerThread.cs:108-125 | callers submitting a burst leave it on the stack in reverse (the last submitted on top) and see exactly the Loading events of its Plays, in order |
| PlayerThreadProperties.PushReversed | PlayerThread.cs:112 | pushing the first command of a burst and then the rest is pushing the whole burst in reverse |
| PlayerThreadProperties.BurstDrainsNewestFirst | PlayerThread.cs:73 | a burst of Play and Stop submitted to an idle worker is applied in one cycle in the reverse of submission order, and the worker keeps running |
| PlayerThreadProperties.HaltSkipsOlderCommands | PlayerThread.cs:75-102 | of a burst older, Halt, newer, only newer is applied (newest first); older stays on the stack unapplied and the worker terminates for good |
| PlayerThreadProperties.TerminatedStaysSilent | PlayerThread.cs:101-105 | after termination, whatever is submitted or raised, no Playing or Stopped event is emitted and the engine and isPlaying never change |
| PlayerThreadProperties.ShutdownIsSilent | PlayerThread.cs:104-105 | a cycle that pops Halt first emits nothing even when disposing stops a playing device, and isPlaying keeps its value |
| PlayerThreadProperties.TwoPlaysEndOnOlder | PlayerThread.cs:73-94 | Play(a) then Play(b) on an idle worker: Loading a, Loading b, then Playing b, Stopped, Playing a, ending on a |
| PlayerThreadProperties.PlayThenStop | PlayerThread.cs:80-97 | a reachable stream: Loading then Playing with isPlaying set; a later Stop gives Stopped without error and isPlaying false |
| PlayerThreadProperties.PlayUnreachable | PlayerThread.cs:87-93 | a stream that cannot be opened: Loading then Stopped with the error, never Playing, isPlaying false and no source held |
| PlayerThreadProperties.IdleHaltTerminates | PlayerThread.cs:75-105 | halting an idle worker ends it in one cycle, silently, with the device released |

## Left out

- PlayerThread.RunKeepsCoherent: a device end or fault is taken only between wake cycles,
  never inside a command. In the source the device's notice arrives on its own thread and
  can run the handler in the window between `soundOut.Play()` returning and
  `IsPlaying = true` (Player.cs:42, PlayerThread.cs:81-84). There the handler's
  `Stopped(error)` comes before `Playing(uri)`, and IsPlaying ends true with nothing
  playing. `Coherent`, `NextKeepsCoherent` and `RunKeepsCoherent` hold only under this
  atomicity.
- Threads: the worker thread, the `ManualResetEvent` (modelled as the `signaled` flag)
  and the blocking wait are not modelled (PlayerThread.cs:45-49, 70-71). Pushes are atomic
  steps between wake cycles. A push that lands while a cycle is draining, which the real
  `TryPop` could still pick up in that cycle, is not modelled.
- PlayerThread.SubmitHalt: the 200 ms `Join` and the `Abort` fallback (PlayerThread.cs:126-127)
  are not modelled. The model's halt returns at once, and the worker is taken to finish
  its shutdown in a later wake cycle.
- Choosing between `WasapiOut` and `DirectSoundOut`, and the `MediaFoundationDecoder`
  itself (Player.cs:22-33), are opaque. Only whether each call throws is modelled.
- Library calls other than the three in the try block are taken never to throw:
  device `Stop`, source `Dispose` and device `Dispose`.
- The device raises stop notices on its own thread in the library. The model delivers a
  notice raised by an engine call at that point in the call. A natural end or fault is
  the separate step `DeviceEnd`.
- The event-args objects are reduced to the uri and whether there is an error (and
  which one). Subscribers that are absent (`null` events) are not modelled: every event
  is recorded.
- The `IsPlaying` getter is the `isPlaying` field; thread visibility of it is not modelled.
- TrayIcon.cs is not part of this model.

=== FILE: optional.dfy ===
/** A value that may be absent: the model's stand-in for a C# reference that may be null. */
module Optional {

  datatype Option<+T> = None | Some(value: T)

}

=== FILE: player.dfy ===
/**
  The audio engine of Player.cs: one output device and at most one open decoded
  source. The calls into the audio library (constructing the decoder, initializing
  and starting the output device) are opaque steps whose success or failure is an
  input to the model. Every operation returns the new engine together with the
  library calls it made, in order, and the stop notices the output device raised.
 */
module Player {
  import opened Optional

  /** The exception a failing library call throws. */
  datatype Error = Error(message: string)

  /** How one call into the audio library ends. */
  datatype Outcome = Ok | Throws(error: Error)

  /** The outcomes of the three library calls `Play` makes, in the order it makes them:
      constructing the decoder for the uri, initializing the output device with it,
      and starting the output device. A call after the first one that throws is never made. */
  datatype Attempt = Attempt(open: Outcome, init: Outcome, start: Outcome)

  /** A stop notice of the output device; the error is present when playback ended by a fault. */
  datatype Notice = Notice(error: Option<Error>)

  /** The output device: whether it is playing, and whether it has been released. */
  datatype Output = Output(playing: bool, released: bool)

  /** A call into the audio library. `Open` and `Close` acquire and release a decoded source. */
  datatype Call =
    | OutputStop
    | OutputInit(uri: string)
    | OutputStart
    | OutputRelease
    | Open(uri: string)
    | Close(uri: string)

  /** The engine: its output device and the uri of the decoded source it holds, if any. */
  datatype Engine = Engine(output: Output, source: Option<string>)

  /** What an engine operation did: the engine afterwards, the library calls made and the
      stop notices raised by the output device, both in order. */
  datatype Effect = Effect(engine: Engine, calls: seq<Call>, notices: seq<Notice>)

  /** The effect of `Play` and the error it returns (absent on success). */
  datatype Played = Played(effect: Effect, error: Option<Error>)

  /** A freshly constructed engine: output device acquired, not playing, no source. */
  const Fresh := Engine(Output(false, false), None)

  /** Constructing the engine acquires the output device and nothing else: it holds no
      source, does not play, and its device is not released. */
  lemma FreshIsIdle()
    ensures Valid(Fresh) && Fresh.source == None
    ensures !Fresh.output.playing && !Fresh.output.released
    ensures Stop(Fresh).calls == [OutputStop] && Stop(Fresh).notices == []
  {
  }

  /** The output device only ever plays a source the engine holds. */
  predicate Valid(e: Engine) {
    e.output.playing ==> e.source.Some?
  }

  /** Replays a trace of library calls against the source held before it. The result is
      the source held afterwards, or `None` when the trace opens a source while another is
      still held (the old one would be orphaned) or closes a source it does not hold. */
  function Track(held: Option<string>, calls: seq<Call>): (r: Option<Option<string>>)
    decreases |calls|
  {
    if calls == [] then Some(held)
    else match calls[0]
      case Open(u) => if held.Some? then None else Track(Some(u), calls[1..])
      case Close(u) => if held == Some(u) then Track(None, calls[1..]) else None
      case _ => Track(held, calls[1..])
  }

  /** The trace releases every source it acquires, except the one held afterwards, and
      never opens a source while holding another. */
  predicate Owns(before: Option<string>, calls: seq<Call>, after: Option<string>) {
    Track(before, calls) == Some(after)
  }

  /** Replaying two traces one after the other is replaying their concatenation. */
  lemma {:induction false} TrackAppend(held: Option<string>, xs: seq<Call>, ys: seq<Call>)
    ensures Track(held, xs + ys) ==
              (match Track(held, xs) case None => None case Some(h) => Track(h, ys))
    decreases |xs|
  {
    if xs == [] {
      assert xs + ys == ys;
    } else {
      assert (xs + ys)[0] == xs[0];
      assert (xs + ys)[1..] == xs[1..] + ys;
      match xs[0]
      case Open(u) =>
        if held.None? {
          TrackAppend(Some(u), xs[1..], ys);
        }
      case Close(u) =>
        if held == Some(u) {
          TrackAppend(None, xs[1..], ys);
        }
      case OutputStop => TrackAppend(held, xs[1..], ys);
      case OutputInit(_) => TrackAppend(held, xs[1..], ys);
      case OutputStart => TrackAppend(held, xs[1..], ys);
      case OutputRelease => TrackAppend(held, xs[1..], ys);
    }
  }

  /** The error of the first library call in the attempt that throws, if any. */
  function Fault(a: Attempt): (r: Option<Error>) {
    if a.open.Throws? then Some(a.open.error)
    else if a.init.Throws? then Some(a.init.error)
    else if a.start.Throws? then Some(a.start.error)
    else None
  }

  /** Stops the output device; it raises a stop notice (without error) when it was playing. */
  function StopOutput(o: Output): (r: (Output, seq<Notice>)) {
    (o.(playing := false), if o.playing then [Notice(None)] else [])
  }

  /** Player.Stop: stop the output device, then dispose of the held source, if any. */
  function Stop(e: Engine): (r: Effect)
    ensures r.engine.source == None && !r.engine.output.playing
    ensures r.engine.output.released == e.output.released
    ensures |r.calls| > 0 && r.calls[0] == OutputStop
    ensures Owns(e.source, r.calls, None)
    ensures forall i :: 0 <= i < |r.calls| ==> !r.calls[i].Open?
    ensures e.output.playing ==> r.notices == [Notice(None)]
    ensures !e.output.playing ==> r.notices == []
  {
    var (o, ns) := StopOutput(e.output);
    var calls := if e.source.Some? then [OutputStop, Close(e.source.value)] else [OutputStop];
    assert Track(e.source, calls) == Track(e.source, calls[1..]);
    assert e.source.Some? ==> Track(e.source, calls[1..]) == Track(None, calls[1..][1..]);
    Effect(Engine(o, None), calls, ns)
  }

  /** The part of Player.Play inside its try block, run on an idle engine: construct the
      decoder for `uri`, initialize the output device with it and start the output device.
      When one of those calls throws, the decoder (if it was constructed) is disposed of and
      the error is returned. */
  function Load(idle: Engine, uri: string, a: Attempt): (r: Played)
    requires idle.source == None && !idle.output.playing
    ensures r.effect.notices == []
    ensures r.error == Fault(a)
    ensures r.error.None? ==> r.effect.engine.source == Some(uri) && r.effect.engine.output.playing
    ensures r.error.Some? ==> r.effect.engine == idle
    ensures Open(uri) in r.effect.calls <==> a.open.Ok?
    ensures a.open.Throws? ==> OutputInit(uri) !in r.effect.calls
    ensures a.open.Throws? || a.init.Throws? ==> OutputStart !in r.effect.calls
    ensures Owns(None, r.effect.calls, r.effect.engine.source)
    ensures r.effect.engine.output.released == idle.output.released
  {
    match a.open
    case Throws(err) =>
      Played(Effect(idle, [], []), Some(err))
    case Ok =>
      match a.init
      case Throws(err) =>
        var calls := [Open(uri), OutputInit(uri), Close(uri)];
        assert Track(None, calls) == Track(Some(uri), [OutputInit(uri), Close(uri)]);
        assert Track(Some(uri), [OutputInit(uri), Close(uri)]) == Track(Some(uri), [Close(uri)]);
        assert [Close(uri)][1..] == [];
        assert Track(Some(uri), [Close(uri)]) == Some(None);
        Played(Effect(idle, calls, []), Some(err))
      case Ok =>
        match a.start
        case Throws(err) =>
          var calls := [Open(uri), OutputInit(uri), OutputStart, Close(uri)];
          assert Track(None, calls) == Track(Some(uri), [OutputInit(uri), OutputStart, Close(uri)]);
          assert Track(Some(uri), [OutputInit(uri), OutputStart, Close(uri)])
              == Track(Some(uri), [OutputStart, Close(uri)]);
          assert Track(Some(uri), [OutputStart, Close(uri)]) == Track(Some(uri), [Close(uri)]);
          assert [Close(uri)][1..] == [];
          assert Track(Some(uri), [Close(uri)]) == Some(None);
          Played(Effect(idle, calls, []), Some(err))
        case Ok =>
          var calls := [Open(uri), OutputInit(uri), OutputStart];
          assert Track(None, calls) == Track(Some(uri), [OutputInit(uri), OutputStart]);
          assert Track(Some(uri), [OutputInit(uri), OutputStart]) == Track(Some(uri), [OutputStart]);
          assert [OutputStart][1..] == [];
          assert Track(Some(uri), [OutputStart]) == Some(Some(uri));
          Played(Effect(Engine(idle.output.(playing := true), Some(uri)), calls, []), None)
  }

  /** Player.Play: stop whatever is playing, then load `uri`; on failure the error of the
      first throwing library call is returned and no source is held. */
  function Play(e: Engine, uri: string, a: Attempt): (r: Played)
    ensures |Stop(e).calls| <= |r.effect.calls|
    ensures r.effect.calls[..|Stop(e).calls|] == Stop(e).calls
    ensures r.effect.notices == Stop(e).notices
    ensures r.error == Fault(a)
    ensures r.error.None? <==> a.open.Ok? && a.init.Ok? && a.start.Ok?
    ensures r.error.None? ==> r.effect.engine.source == Some(uri) && r.effect.engine.output.playing
    ensures r.error.Some? ==> r.effect.engine.source == None && !r.effect.engine.output.playing
    ensures Open(uri) in r.effect.calls <==> a.open.Ok?
    // a library call after the first one that throws is never made
    ensures a.open.Throws? ==> OutputInit(uri) !in r.effect.calls
    ensures a.open.Throws? || a.init.Throws? ==> OutputStart !in r.effect.calls
    ensures Owns(e.source, r.effect.calls, r.effect.engine.source)
    ensures r.effect.engine.output.released == e.output.released
    ensures Valid(r.effect.engine)
  {
    var s := Stop(e);
    var l := Load(s.engine, uri, a);
    var calls := s.calls + l.effect.calls;
    TrackAppend(e.source, s.calls, l.effect.calls);
    assert calls[..|s.calls|] == s.calls;
    assert Open(uri) in calls <==> Open(uri) in l.effect.calls;
    assert OutputInit(uri) in calls <==> OutputInit(uri) in l.effect.calls;
    assert OutputStart in calls <==> OutputStart in l.effect.calls;
    Played(Effect(l.effect.engine, calls, s.notices), l.error)
  }

  /** Player.Dispose: stop, then release the output device. */
  function Dispose(e: Engine): (r: Effect)
    ensures r.calls == Stop(e).calls + [OutputRelease]
    ensures r.notices == Stop(e).notices
    ensures r.engine.source == None
    ensures r.engine.output.released && !r.engine.output.playing
    ensures Owns(e.source, r.calls, None)
  {
    var s := Stop(e);
    TrackAppend(e.source, s.calls, [OutputRelease]);
    Effect(s.engine.(output := s.engine.output.(released := true)), s.calls + [OutputRelease], s.notices)
  }

  /** The output device ends playback by itself (end of stream, or a fault carrying an
      error). Its notice is forwarded unchanged to the engine's subscribers; the engine
      keeps its source, since only `Stop` releases it. */
  function Ended(e: Engine, error: Option<Error>): (r: Effect)
    ensures !r.engine.output.playing && r.engine.source == e.source
    ensures r.engine.output.released == e.output.released
    ensures r.calls == []
    ensures e.output.playing ==> r.notices == [Notice(error)]
    ensures !e.output.playing ==> r.notices == [] && r.engine == e
    ensures Valid(r.engine)
  {
    if e.output.playing then Effect(e.(output := e.output.(playing := false)), [], [Notice(error)])
    else Effect(e, [], [])
  }

  /** Stopping twice is stopping once: the second stop holds nothing, releases nothing
      and raises no notice. */
  lemma StopIdempotent(e: Engine)
    ensures Stop(Stop(e).engine).engine == Stop(e).engine
    ensures Stop(Stop(e).engine).calls == [OutputStop]
    ensures Stop(Stop(e).engine).notices == []
  {
  }

  /** A failed play never leaves a source referenced, and the trace shows the partial
      source released exactly when the decoder had been constructed. */
  lemma FailedPlayHoldsNothing(e: Engine, uri: string, a: Attempt)
    requires Fault(a).Some?
    ensures Play(e, uri, a).effect.engine.source == None
    ensures Play(e, uri, a).error == Fault(a)
    ensures Close(uri) in Play(e, uri, a).effect.calls[|Stop(e).calls|..] <==> a.open.Ok?
    ensures Owns(e.source, Play(e, uri, a).effect.calls, None)
  {
    var r := Play(e, uri, a);
    var s := Stop(e);
    var tail := r.effect.calls[|s.calls|..];
    assert r.effect.calls == s.calls + tail;
    if a.open.Ok? {
      if a.init.Throws? {
        assert tail == [Open(uri), OutputInit(uri), Close(uri)];
      } else {
        assert tail == [Open(uri), OutputInit(uri), OutputStart, Close(uri)];
      }
    } else {
      assert tail == [];
    }
  }
}

=== FILE: player_thread.dfy ===
/**
  The playback worker of PlayerThread.cs with its thread taken away. Callers push
  commands onto a stack and set the wake signal. Each wake cycle pops commands newest
  first and applies them to the engine, stopping as soon as it pops HALT. The worker
  keeps a cached IsPlaying flag and a halting flag. It emits Loading, Playing and
  Stopped events, and forwards the engine's stop notices only while it is not halting.

  Each step is a pure function from the worker's state to its next state and the
  events emitted. Stop notices the output device raises during an engine call go to
  the handler at that point in the call.
 */
module PlayerThread {
  import opened Optional
  import Player

  /** PlayerOperaion: the action and, for PLAY, the uri. */
  datatype Command = Play(uri: string) | Stop | Halt

  /** The events observers see. A Stopped event carries an error when playback failed or faulted. */
  datatype Event = Loading(uri: string) | Playing(uri: string) | Stopped(error: Option<Player.Error>)

  /** Everything the worker owns. `stack` holds pending commands with the top (most recently
      pushed) at index 0. `signaled` is the wake signal. `alive` is false once the worker
      has left its loop and disposed of the engine. */
  datatype Worker = Worker(
    stack: seq<Command>,
    signaled: bool,
    isPlaying: bool,
    halting: bool,
    alive: bool,
    engine: Player.Engine)

  /** The worker's next state and the events it emitted, in order. */
  datatype Reaction = Reaction(worker: Worker, events: seq<Event>)

  /** The result of one wake cycle: the worker afterwards, the events emitted, the
      commands applied in the order they were taken, and the last command taken. That
      last command is absent when the cycle ended because the stack was empty: a failed
      pop leaves the operation variable null. */
  datatype Drained = Drained(worker: Worker, events: seq<Event>, taken: seq<Command>, last: Option<Command>)

  /** The worker as DoWork begins: nothing pending, no signal, not halting, a freshly
      constructed engine subscribed to, and IsPlaying at its default, false. */
  const Start := Worker([], false, false, false, true, Player.Fresh)

  /** The worker's state stays consistent: the engine is valid; the worker halts exactly
      when it terminates; while running, the cached flag agrees with the output device and
      the device is not released; once terminated, the engine is disposed. */
  predicate Coherent(w: Worker) {
    && Player.Valid(w.engine)
    && (w.halting <==> !w.alive)
    && (w.alive ==> (w.isPlaying <==> w.engine.output.playing) && !w.engine.output.released)
    && (!w.alive ==> w.engine.output.released && w.engine.source == None && !w.engine.output.playing)
  }

  /** The runs of `RunKeepsCoherent` start from a coherent state. */
  lemma StartIsCoherent()
    ensures Coherent(Start)
  {
  }

  /** PlayerThread.Play: emit Loading(uri), then push PLAY(uri) and set the wake signal. */
  function SubmitPlay(w: Worker, uri: string): (r: Reaction)
    ensures r.events == [Loading(uri)]
    ensures r.worker.stack == [Play(uri)] + w.stack && r.worker.signaled
    ensures r.worker == w.(stack := r.worker.stack, signaled := true)
  {
    Reaction(w.(stack := [Play(uri)] + w.stack, signaled := true), [Loading(uri)])
  }

  /** PlayerThread.Stop: push STOP and set the wake signal, emitting nothing. */
  function SubmitStop(w: Worker): (r: Reaction)
    ensures r.events == []
    ensures r.worker.stack == [Stop] + w.stack && r.worker.signaled
    ensures r.worker == w.(stack := r.worker.stack, signaled := true)
  {
    Reaction(w.(stack := [Stop] + w.stack, signaled := true), [])
  }

  /** PlayerThread.Halt: push HALT and set the wake signal, emitting nothing. Waiting for
      the thread, and aborting it after the timeout, are not modelled. */
  function SubmitHalt(w: Worker): (r: Reaction)
    ensures r.events == []
    ensures r.worker.stack == [Halt] + w.stack && r.worker.signaled
    ensures r.worker == w.(stack := r.worker.stack, signaled := true)
  {
    Reaction(w.(stack := [Halt] + w.stack, signaled := true), [])
  }

  /** The worker's handler for the engine's stop notice: swallowed while halting,
      otherwise it clears IsPlaying and forwards the notice's error as a Stopped event. */
  function OnEngineStopped(w: Worker, n: Player.Notice): (r: Reaction)
    ensures w.halting ==> r == Reaction(w, [])
    ensures !w.halting ==> r.worker == w.(isPlaying := false) && r.events == [Stopped(n.error)]
  {
    if w.halting then Reaction(w, [])
    else Reaction(w.(isPlaying := false), [Stopped(n.error)])
  }

  /** The handler applied to each notice in turn. */
  function OnEngineStoppedAll(w: Worker, ns: seq<Player.Notice>): (r: Reaction)
    decreases |ns|
    ensures w.halting ==> r == Reaction(w, [])
    ensures !w.halting ==> |r.events| == |ns|
    ensures !w.halting ==> forall i :: 0 <= i < |ns| ==> r.events[i] == Stopped(ns[i].error)
    ensures !w.halting && ns == [] ==> r.worker == w
    ensures !w.halting && ns != [] ==> r.worker == w.(isPlaying := false)
  {
    if ns == [] then Reaction(w, [])
    else
      var first := OnEngineStopped(w, ns[0]);
      var rest := OnEngineStoppedAll(first.worker, ns[1..]);
      Reaction(rest.worker, first.events + rest.events)
  }

  /** A PLAY taken from the stack: ask the engine to play `uri`. On success set IsPlaying
      and emit Playing(uri); on failure clear IsPlaying and emit Stopped carrying the
      error. The stop notice the engine raises while stopping the previous stream goes
      through the handler first. `a` gives the outcomes of the library calls. */
  function PlayCommand(w: Worker, uri: string, a: Player.Attempt): (r: Reaction)
    ensures r.worker == w.(isPlaying := r.worker.isPlaying, engine := r.worker.engine)
    ensures r.worker.engine == Player.Play(w.engine, uri, a).effect.engine
    // success: IsPlaying set, exactly one Playing(uri), last, and no Stopped with an error
    ensures Player.Fault(a).None? ==>
              r.worker.isPlaying && r.worker.engine.source == Some(uri) &&
              r.events == (if w.engine.output.playing && !w.halting then [Stopped(None)] else []) + [Playing(uri)]
    // failure: IsPlaying cleared, exactly one Stopped carrying the error, last, and no Playing
    ensures Player.Fault(a).Some? ==>
              !r.worker.isPlaying && r.worker.engine.source == None &&
              r.events == (if w.engine.output.playing && !w.halting then [Stopped(None)] else []) +
                          [Stopped(Player.Fault(a))]
  {
    var p := Player.Play(w.engine, uri, a);
    var h := OnEngineStoppedAll(w.(engine := p.effect.engine), p.effect.notices);
    match p.error
    case None => Reaction(h.worker.(isPlaying := true), h.events + [Playing(uri)])
    case Some(err) => Reaction(h.worker.(isPlaying := false), h.events + [Stopped(Some(err))])
  }

  /** A STOP taken from the stack: only ask the engine to stop. It emits nothing and leaves
      IsPlaying alone itself; a notice from a device that was playing reaches observers
      through the handler. */
  function StopCommand(w: Worker): (r: Reaction)
    ensures r.worker == w.(isPlaying := r.worker.isPlaying, engine := r.worker.engine)
    ensures r.worker.engine == Player.Stop(w.engine).engine
    ensures !w.engine.output.playing || w.halting ==> r.events == [] && r.worker.isPlaying == w.isPlaying
    ensures w.engine.output.playing && !w.halting ==> r.events == [Stopped(None)] && !r.worker.isPlaying
  {
    var s := Player.Stop(w.engine);
    OnEngineStoppedAll(w.(engine := s.engine), s.notices)
  }

  /** Applies one PLAY or STOP taken from the stack (the switch in DoWork). */
  function Apply(w: Worker, c: Command, a: Player.Attempt): (r: Reaction)
    requires !c.Halt?
    ensures r.worker == w.(isPlaying := r.worker.isPlaying, engine := r.worker.engine)
    ensures Player.Valid(r.worker.engine)
    ensures r.worker.engine.output.released == w.engine.output.released
  {
    match c
    case Play(uri) => PlayCommand(w, uri, a)
    case Stop => StopCommand(w)
  }

  /** The commands a drain of `stack` applies, in the order it takes them: every command
      above the first HALT, starting from the top (the most recently pushed). */
  function Pending(stack: seq<Command>): (p: seq<Command>)
    ensures |p| <= |stack| && p == stack[..|p|]
    ensures forall i :: 0 <= i < |p| ==> !p[i].Halt?
    ensures |p| < |stack| ==> stack[|p|] == Halt
  {
    if stack == [] || stack[0].Halt? then []
    else [stack[0]] + Pending(stack[1..])
  }

  /** Whether a drain of `stack` ends by popping HALT rather than by running dry. */
  predicate EndsOnHalt(stack: seq<Command>) {
    |Pending(stack)| < |stack|
  }

  /** The commands a drain of `stack` leaves on it: those beneath the first HALT. */
  function Beneath(stack: seq<Command>): (b: seq<Command>)
    ensures EndsOnHalt(stack) ==> stack == Pending(stack) + [Halt] + b
    ensures !EndsOnHalt(stack) ==> b == []
  {
    if stack == [] then []
    else if stack[0].Halt? then stack[1..]
    else Beneath(stack[1..])
  }

  /** The inner loop of DoWork: pop commands until the stack is empty or HALT is popped,
      applying every other command. `k` counts the commands applied so far, and `env(k)`
      gives the library outcomes for the next one. */
  function Drain(w: Worker, env: nat -> Player.Attempt, k: nat): (r: Drained)
    decreases |w.stack|
    ensures r.worker.signaled == w.signaled && r.worker.halting == w.halting && r.worker.alive == w.alive
    ensures Player.Valid(w.engine) ==> Player.Valid(r.worker.engine)
    ensures r.worker.engine.output.released == w.engine.output.released
  {
    if |w.stack| == 0 then Drained(w, [], [], None)
    else
      var c := w.stack[0];
      var popped := w.(stack := w.stack[1..]);
      if c.Halt? then Drained(popped, [], [], Some(Halt))
      else
        var a := Apply(popped, c, env(k));
        var rest := Drain(a.worker, env, k + 1);
        Drained(rest.worker, a.events + rest.events, [c] + rest.taken, rest.last)
  }

  /** Newest first: a drain applies exactly the commands above the first HALT, from the
      top down, and leaves those beneath it on the stack. Running dry leaves no last
      command; popping HALT leaves HALT as the last one. */
  lemma {:induction false} DrainOrder(w: Worker, env: nat -> Player.Attempt, k: nat)
    decreases |w.stack|
    ensures Drain(w, env, k).taken == Pending(w.stack)
    ensures Drain(w, env, k).worker.stack == Beneath(w.stack)
    ensures !EndsOnHalt(w.stack) ==> Drain(w, env, k).last == None
    ensures EndsOnHalt(w.stack) ==> Drain(w, env, k).last == Some(Halt)
  {
    if |w.stack| > 0 && !w.stack[0].Halt? {
      var a := Apply(w.(stack := w.stack[1..]), w.stack[0], env(k));
      DrainOrder(a.worker, env, k + 1);
    }
  }

  /** A drain that continues one already under way, after `events` were emitted and the
      commands `taken` applied. */
  function Resume(events: seq<Event>, taken: seq<Command>, rest: Drained): (r: Drained) {
    Drained(rest.worker, events + rest.events, taken + rest.taken, rest.last)
  }

  /** Resuming twice is resuming once with both prefixes. */
  lemma ResumeResume(e1: seq<Event>, t1: seq<Command>, e2: seq<Event>, t2: seq<Command>, d: Drained)
    ensures Resume(e1, t1, Resume(e2, t2, d)) == Resume(e1 + e2, t1 + t2, d)
  {
    assert e1 + (e2 + d.events) == (e1 + e2) + d.events;
    assert t1 + (t2 + d.taken) == (t1 + t2) + d.taken;
  }

  /** One turn of the inner loop: what popping the top command does to the rest of the drain. */
  lemma DrainUnfolds(w: Worker, env: nat -> Player.Attempt, k: nat)
    requires |w.stack| > 0
    ensures w.stack[0].Halt? ==> Drain(w, env, k) == Drained(w.(stack := w.stack[1..]), [], [], Some(Halt))
    ensures !w.stack[0].Halt? ==>
              var a := Apply(w.(stack := w.stack[1..]), w.stack[0], env(k));
              Drain(w, env, k) == Resume(a.events, [w.stack[0]], Drain(a.worker, env, k + 1))
  {
  }

  /** The turn of the inner loop that ends it, seen from the drain under way: the pop
      fails on an empty stack, or it takes HALT. */
  lemma DrainEnds(w: Worker, env: nat -> Player.Attempt, events: seq<Event>, taken: seq<Command>)
    requires (|w.stack| == 0 || w.stack[0].Halt?)
    ensures |w.stack| == 0 ==> Resume(events, taken, Drain(w, env, |taken|)) == Drained(w, events, taken, None)
    ensures |w.stack| > 0 ==> Resume(events, taken, Drain(w, env, |taken|)) ==
                              Drained(w.(stack := w.stack[1..]), events, taken, Some(Halt))
  {
    assert events + [] == events;
    assert taken + [] == taken;
  }

  /** A turn of the inner loop that applies a command, seen from the drain under way. */
  lemma DrainStep(w: Worker, env: nat -> Player.Attempt, events: seq<Event>, taken: seq<Command>)
    requires |w.stack| > 0 && !w.stack[0].Halt?
    ensures var a := Apply(w.(stack := w.stack[1..]), w.stack[0], env(|taken|));
            Resume(events, taken, Drain(w, env, |taken|)) ==
            Resume(events + a.events, taken + [w.stack[0]], Drain(a.worker, env, |taken| + 1))
  {
    var a := Apply(w.(stack := w.stack[1..]), w.stack[0], env(|taken|));
    DrainUnfolds(w, env, |taken|);
    ResumeResume(events, taken, a.events, [w.stack[0]], Drain(a.worker, env, |taken| + 1));
  }

  /** One wake cycle of DoWork, enabled only while the worker runs and the signal is set.
      The signal is cleared, the stack drained, and if the cycle ended on HALT the worker
      sets halting, disposes of the engine (whose notices the handler now swallows) and
      terminates; otherwise it goes back to waiting. */
  function Wake(w: Worker, env: nat -> Player.Attempt): (r: Drained)
    requires w.alive && w.signaled
    ensures !r.worker.signaled
    ensures r.taken == Pending(w.stack) && r.worker.stack == Beneath(w.stack)
    // the stack ran dry: the worker goes back to waiting
    ensures !EndsOnHalt(w.stack) ==> r.last == None && r.worker.alive && r.worker.halting == w.halting
    // HALT was popped: the worker leaves its loop for good, having disposed of the engine
    ensures EndsOnHalt(w.stack) ==> r.last == Some(Halt) && !r.worker.alive && r.worker.halting &&
                                    r.worker.engine.source == None && r.worker.engine.output.released &&
                                    !r.worker.engine.output.playing
    // shutting down emits nothing: the events are those of the commands applied
    ensures r.events == Drain(w.(signaled := false), env, 0).events
    // the stop notice of the disposal is swallowed: IsPlaying keeps its drained value
    ensures r.worker.isPlaying == Drain(w.(signaled := false), env, 0).worker.isPlaying
    ensures !EndsOnHalt(w.stack) ==> r.worker == Drain(w.(signaled := false), env, 0).worker
  {
    var d := Drain(w.(signaled := false), env, 0);
    DrainOrder(w.(signaled := false), env, 0);
    if d.last.Some? && d.last.value.Halt? then
      var h := d.worker.(halting := true);
      var disposed := Player.Dispose(h.engine);
      var s := OnEngineStoppedAll(h.(engine := disposed.engine), disposed.notices);
      Drained(s.worker.(alive := false), d.events + s.events, d.taken, d.last)
    else d
  }

  /** The turn of the inner loop that pops a PLAY or STOP and applies it. */
  method ApplyTurn(w: Worker, env: nat -> Player.Attempt, events: seq<Event>, taken: seq<Command>,
                   ghost whole: Drained)
    returns (w': Worker, events': seq<Event>, taken': seq<Command>)
    requires |w.stack| > 0 && !w.stack[0].Halt?
    requires whole == Resume(events, taken, Drain(w, env, |taken|))
    ensures |w'.stack| == |w.stack| - 1
    ensures whole == Resume(events', taken', Drain(w', env, |taken'|))
  {
    DrainStep(w, env, events, taken);
    var a := Apply(w.(stack := w.stack[1..]), w.stack[0], env(|taken|));
    w', events', taken' := a.worker, events + a.events, taken + [w.stack[0]];
  }

  /** The inner loop of DoWork as written: pop until the pop fails, which leaves no
      operation, or takes HALT, which breaks out; apply every other command taken.
      `whole` is the drain the loop carries forward. */
  method RunDrain(w0: Worker, env: nat -> Player.Attempt) returns (r: Drained)
    ensures r == Drain(w0, env, 0)
  {
    ghost var whole := Drain(w0, env, 0);
    assert [] + whole.events == whole.events && [] + whole.taken == whole.taken;
    assert Resume([], [], whole) == whole;
    var w := w0;
    var events: seq<Event> := [];
    var taken: seq<Command> := [];
    var operation: Option<Command> := None;
    while true
      invariant whole == Resume(events, taken, Drain(w, env, |taken|))
      decreases |w.stack|
    {
      if |w.stack| == 0 {
        DrainEnds(w, env, events, taken);
        operation := None;
        break;
      }
      var c := w.stack[0];
      operation := Some(c);
      if c.Halt? {
        DrainEnds(w, env, events, taken);
        w := w.(stack := w.stack[1..]);
        break;
      }
      w, events, taken := ApplyTurn(w, env, events, taken, whole);
    }
    r := Drained(w, events, taken, operation);
  }

  /** One pass of the body of DoWork's outer loop, after the wait: reset the signal, run the
      inner loop, and when the operation it left is HALT, leave the outer loop and dispose
      of the engine. */
  method RunWake(w0: Worker, env: nat -> Player.Attempt) returns (r: Drained)
    requires w0.alive && w0.signaled
    ensures r == Wake(w0, env)
  {
    var d := RunDrain(w0.(signaled := false), env);
    var w := d.worker;
    var events := d.events;
    var operation := d.last;
    if operation.Some? && operation.value.Halt? {
      w := w.(halting := true);
      var disposed := Player.Dispose(w.engine);
      var s := OnEngineStoppedAll(w.(engine := disposed.engine), disposed.notices);
      w := s.worker.(alive := false);
      events := events + s.events;
    }
    r := Drained(w, events, d.taken, operation);
  }

  /** The output device ends playback by itself (end of stream or a fault); the engine
      forwards its notice to the worker's handler. */
  function DeviceEnded(w: Worker, error: Option<Player.Error>): (r: Reaction)
    ensures r.worker.engine == Player.Ended(w.engine, error).engine
    ensures w.engine.output.playing && !w.halting ==> r.events == [Stopped(error)] && !r.worker.isPlaying
    ensures !w.engine.output.playing || w.halting ==> r.events == [] && r.worker.isPlaying == w.isPlaying
    ensures r.worker == w.(isPlaying := r.worker.isPlaying, engine := r.worker.engine)
  {
    var ended := Player.Ended(w.engine, error);
    OnEngineStoppedAll(w.(engine := ended.engine), ended.notices)
  }

  /** One atomic step of the whole system: a caller pushes a command, the worker runs a
      wake cycle, or the device ends playback by itself. */
  datatype Step =
    | CallPlay(uri: string)
    | CallStop
    | CallHalt
    | WakeUp(env: nat -> Player.Attempt)
    | DeviceEnd(error: Option<Player.Error>)

  /** The effect of one step. A wake-up that is not enabled (no signal, or the worker has
      terminated) changes nothing: the worker is blocked or gone. */
  function Next(w: Worker, s: Step): (r: Reaction) {
    match s
    case CallPlay(uri) => SubmitPlay(w, uri)
    case CallStop => SubmitStop(w)
    case CallHalt => SubmitHalt(w)
    case WakeUp(env) =>
      if w.alive && w.signaled then
        var d := Wake(w, env);
        Reaction(d.worker, d.events)
      else Reaction(w, [])
    case DeviceEnd(error) => DeviceEnded(w, error)
  }

  /** Runs the steps in order from `w`, collecting every event emitted. */
  function Run(w: Worker, steps: seq<Step>): (r: Reaction)
    decreases |steps|
  {
    if steps == [] then Reaction(w, [])
    else
      var n := Next(w, steps[0]);
      var rest := Run(n.worker, steps[1..]);
      Reaction(rest.worker, n.events + rest.events)
  }

  /** A command applied by a running worker keeps it coherent: IsPlaying ends up equal to
      whether the output device plays. */
  lemma ApplyKeepsCoherent(w: Worker, c: Command, a: Player.Attempt)
    requires Coherent(w) && w.alive && !c.Halt?
    ensures Coherent(Apply(w, c, a).worker)
  {
  }

  /** A drain by a running worker keeps it coherent, one applied command at a time. */
  lemma {:induction false} DrainKeepsCoherent(w: Worker, env: nat -> Player.Attempt, k: nat)
    requires Coherent(w) && w.alive
    decreases |w.stack|
    ensures Coherent(Drain(w, env, k).worker)
  {
    if |w.stack| > 0 && !w.stack[0].Halt? {
      var popped := w.(stack := w.stack[1..]);
      ApplyKeepsCoherent(popped, w.stack[0], env(k));
      DrainKeepsCoherent(Apply(popped, w.stack[0], env(k)).worker, env, k + 1);
    }
  }

  /** Every step of the system keeps the worker coherent. */
  lemma NextKeepsCoherent(w: Worker, s: Step)
    requires Coherent(w)
    ensures Coherent(Next(w, s).worker)
  {
    match s
    case WakeUp(env) =>
      if w.alive && w.signaled {
        DrainKeepsCoherent(w.(signaled := false), env, 0);
      }
    case _ =>
  }

  /** Every run of the system from a coherent state, in particular from `Start`, ends in a
      coherent state. */
  lemma {:induction false} RunKeepsCoherent(w: Worker, steps: seq<Step>)
    requires Coherent(w)
    decreases |steps|
    ensures Coherent(Run(w, steps).worker)
  {
    if steps != [] {
      NextKeepsCoherent(w, steps[0]);
      RunKeepsCoherent(Next(w, steps[0]).worker, steps[1..]);
    }
  }
}

=== FILE: player_thread_properties.dfy ===
/**
  Properties of the playback worker that relate several calls: the newest-first order in
  which a burst of commands is drained, HALT cutting a drain short, the silence of a
  terminated worker, and a few end-to-end scenarios: play then stop, an unreachable
  stream, two plays back to back, and halting an idle worker.
 */
module PlayerThreadProperties {
  import opened Optional
  import Player
  import opened PlayerThread

  /** The sequence read back to front. */
  function Reverse<T>(s: seq<T>): (r: seq<T>)
    ensures |r| == |s|
    ensures forall i :: 0 <= i < |s| ==> r[i] == s[|s| - 1 - i]
  {
    if s == [] then [] else Reverse(s[1..]) + [s[0]]
  }

  /** A caller submitting one command through the matching public operation. */
  function Submit(w: Worker, c: Command): (r: Reaction)
    ensures r.worker == w.(stack := [c] + w.stack, signaled := true)
    ensures r.events == if c.Play? then [Loading(c.uri)] else []
  {
    match c
    case Play(uri) => SubmitPlay(w, uri)
    case Stop => SubmitStop(w)
    case Halt => SubmitHalt(w)
  }

  /** The Loading events the PLAY commands of a burst announce, in submission order. */
  function Loadings(cs: seq<Command>): (r: seq<Event>) {
    if cs == [] then []
    else (if cs[0].Play? then [Loading(cs[0].uri)] else []) + Loadings(cs[1..])
  }

  /** Callers submitting `cs` in order, with no wake cycle in between: the last one
      submitted ends up on top of the stack, and only Play announces itself. */
  function SubmitAll(w: Worker, cs: seq<Command>): (r: Reaction)
    decreases |cs|
    ensures r.worker.stack == Reverse(cs) + w.stack
    ensures r.worker == w.(stack := r.worker.stack, signaled := r.worker.signaled)
    ensures cs != [] ==> r.worker.signaled
    ensures cs == [] ==> r.worker.signaled == w.signaled
    ensures r.events == Loadings(cs)
  {
    if cs == [] then Reaction(w, [])
    else
      var first := Submit(w, cs[0]);
      var rest := SubmitAll(first.worker, cs[1..]);
      PushReversed(cs, w.stack);
      Reaction(rest.worker, first.events + rest.events)
  }

  /** Pushing the first command, then the rest in reverse, is pushing them all in reverse. */
  lemma PushReversed(cs: seq<Command>, stack: seq<Command>)
    requires cs != []
    ensures Reverse(cs[1..]) + ([cs[0]] + stack) == Reverse(cs) + stack
  {
    var r := Reverse(cs[1..]);
    assert Reverse(cs) == r + [cs[0]];
    PushOne(r, cs[0], stack);
  }

  /** Pushing `c` beneath `r` is appending it to `r`. */
  lemma PushOne<T>(r: seq<T>, c: T, stack: seq<T>)
    ensures r + ([c] + stack) == (r + [c]) + stack
  {
  }

  /** No HALT among the commands. */
  predicate HaltFree(cs: seq<Command>) {
    forall i :: 0 <= i < |cs| ==> !cs[i].Halt?
  }

  /** A stack with no HALT is drained completely. */
  lemma {:induction false} PendingHaltFree(s: seq<Command>)
    requires HaltFree(s)
    decreases |s|
    ensures Pending(s) == s && Beneath(s) == [] && !EndsOnHalt(s)
  {
    if s != [] {
      PendingHaltFree(s[1..]);
    }
  }

  /** A drain stops at the first HALT: it applies what lies above and leaves what lies beneath. */
  lemma {:induction false} PendingStopsAtHalt(above: seq<Command>, beneath: seq<Command>)
    requires HaltFree(above)
    decreases |above|
    ensures Pending(above + [Halt] + beneath) == above
    ensures Beneath(above + [Halt] + beneath) == beneath
    ensures EndsOnHalt(above + [Halt] + beneath)
  {
    var s := above + [Halt] + beneath;
    if above == [] {
      assert s == [Halt] + beneath;
    } else {
      assert s[1..] == above[1..] + [Halt] + beneath;
      PendingStopsAtHalt(above[1..], beneath);
    }
  }

  /** Reading a burst back to front adds no HALT to it. */
  lemma ReverseHaltFree(cs: seq<Command>)
    requires HaltFree(cs)
    ensures HaltFree(Reverse(cs))
  {
  }

  /** Newest first: a burst of PLAY and STOP commands submitted to an idle worker is applied,
      in one wake cycle, in the reverse of the order it was submitted, and the worker keeps
      running with an empty stack. */
  lemma BurstDrainsNewestFirst(w: Worker, cs: seq<Command>, env: nat -> Player.Attempt)
    requires Coherent(w) && w.alive && w.stack == []
    requires cs != [] && HaltFree(cs)
    ensures var s := SubmitAll(w, cs).worker;
            var r := Wake(s, env);
            r.taken == Reverse(cs) && r.worker.stack == [] && r.worker.alive && r.last == None
  {
    var s := SubmitAll(w, cs).worker;
    ReverseHaltFree(cs);
    assert s.stack == Reverse(cs);
    PendingHaltFree(s.stack);
  }

  /** HALT cuts the drain short: of a burst `older + [HALT] + newer` submitted to an idle
      worker, only the commands submitted after HALT are applied (newest first); the ones
      submitted before it stay on the stack unapplied, and the worker terminates. */
  lemma HaltSkipsOlderCommands(w: Worker, older: seq<Command>, newer: seq<Command>, env: nat -> Player.Attempt)
    requires Coherent(w) && w.alive && w.stack == []
    requires HaltFree(newer)
    ensures var s := SubmitAll(w, older + [Halt] + newer).worker;
            var r := Wake(s, env);
            r.taken == Reverse(newer) && r.worker.stack == Reverse(older) &&
            r.last == Some(Halt) && !r.worker.alive && r.worker.halting
  {
    var cs := older + [Halt] + newer;
    var s := SubmitAll(w, cs).worker;
    ReverseHaltFree(newer);
    ReverseAroundHalt(older, newer);
    assert s.stack == Reverse(newer) + [Halt] + Reverse(older);
    PendingStopsAtHalt(Reverse(newer), Reverse(older));
    DrainOrder(s.(signaled := false), env, 0);
  }

  /** Submitting `older`, HALT and `newer` in turn puts `newer` on top, newest first. */
  lemma ReverseAroundHalt(older: seq<Command>, newer: seq<Command>)
    ensures Reverse(older + [Halt] + newer) == Reverse(newer) + [Halt] + Reverse(older)
  {
    ReverseConcat(older + [Halt], newer);
    ReverseConcat(older, [Halt]);
  }

  /** Reversing a concatenation reverses and swaps its parts. */
  lemma ReverseConcat<T>(xs: seq<T>, ys: seq<T>)
    ensures Reverse(xs + ys) == Reverse(ys) + Reverse(xs)
  {
    assert |Reverse(xs + ys)| == |Reverse(ys) + Reverse(xs)|;
    forall i | 0 <= i < |xs| + |ys|
      ensures Reverse(xs + ys)[i] == (Reverse(ys) + Reverse(xs))[i]
    {
      if i < |ys| {
        assert (xs + ys)[|xs| + |ys| - 1 - i] == ys[|ys| - 1 - i];
      } else {
        assert (xs + ys)[|xs| + |ys| - 1 - i] == xs[|xs| - 1 - (i - |ys|)];
      }
    }
  }

  /** Once the worker has terminated, nothing it owns changes and no Playing or Stopped
      event is ever emitted again, whatever is submitted or raised; a PLAY submitted
      afterwards still announces Loading, since that happens on the caller's side. */
  lemma {:induction false} TerminatedStaysSilent(w: Worker, steps: seq<Step>)
    requires Coherent(w) && !w.alive
    decreases |steps|
    ensures var r := Run(w, steps);
            !r.worker.alive && r.worker.engine == w.engine && r.worker.isPlaying == w.isPlaying &&
            forall i :: 0 <= i < |r.events| ==> r.events[i].Loading?
  {
    if steps != [] {
      var n := Next(w, steps[0]);
      NextKeepsCoherent(w, steps[0]);
      TerminatedStaysSilent(n.worker, steps[1..]);
    }
  }

  /** Shutting down is silent: a wake cycle that pops HALT first emits nothing, even when
      the device was playing and disposing of the engine stops it, and the cached IsPlaying
      keeps the value it had. */
  lemma ShutdownIsSilent(w: Worker, env: nat -> Player.Attempt)
    requires Coherent(w) && w.alive && w.signaled
    requires |w.stack| > 0 && w.stack[0] == Halt
    ensures var r := Wake(w, env);
            r.events == [] && !r.worker.alive && r.worker.isPlaying == w.isPlaying &&
            !r.worker.engine.output.playing && r.worker.stack == w.stack[1..]
  {
    DrainOrder(w.(signaled := false), env, 0);
  }

  /** Library calls that all succeed. */
  const Reachable := Player.Attempt(Player.Ok, Player.Ok, Player.Ok)

  /** Two PLAYs submitted back to back to an idle worker play the newer one first and end
      on the older one: the stream heard last is the one selected first. */
  lemma TwoPlaysEndOnOlder(a: string, b: string)
    ensures var s := SubmitAll(Start, [Play(a), Play(b)]);
            var r := Wake(s.worker, (k: nat) => Reachable);
            s.events == [Loading(a), Loading(b)] &&
            r.taken == [Play(b), Play(a)] &&
            r.events == [Playing(b), Stopped(None), Playing(a)] &&
            r.worker.engine.source == Some(a) && r.worker.isPlaying
  {
    var env := (k: nat) => Reachable;
    var s := SubmitAll(Start, [Play(a), Play(b)]);
    assert s.worker.stack == [Play(b), Play(a)];
    var w0 := s.worker.(signaled := false);
    DrainTwoPlays(w0, a, b, env);
    DrainOrder(w0, env, 0);
  }

  /** The drain behind `TwoPlaysEndOnOlder`, one command at a time. */
  lemma DrainTwoPlays(w0: Worker, a: string, b: string, env: nat -> Player.Attempt)
    requires w0 == Start.(stack := [Play(b), Play(a)])
    requires env(0) == Reachable && env(1) == Reachable
    ensures Drain(w0, env, 0).events == [Playing(b), Stopped(None), Playing(a)]
    ensures Drain(w0, env, 0).worker.engine.source == Some(a) && Drain(w0, env, 0).worker.isPlaying
  {
    DrainUnfolds(w0, env, 0);
    var a1 := Apply(w0.(stack := [Play(a)]), Play(b), Reachable);
    assert a1.events == [Playing(b)] && a1.worker.engine.output.playing;
    DrainUnfolds(a1.worker, env, 1);
    var a2 := Apply(a1.worker.(stack := []), Play(a), Reachable);
    assert a2.events == [Stopped(None), Playing(a)];
    assert Drain(a2.worker, env, 2) == Drained(a2.worker, [], [], None);
  }

  /** A reachable stream: Loading then Playing; a later STOP: Stopped without error, and
      IsPlaying false afterwards. */
  lemma PlayThenStop(uri: string)
    ensures var p := SubmitPlay(Start, uri);
            var r1 := Wake(p.worker, (k: nat) => Reachable);
            var q := SubmitStop(r1.worker);
            var r2 := Wake(q.worker, (k: nat) => Reachable);
            p.events + r1.events == [Loading(uri), Playing(uri)] && r1.worker.isPlaying &&
            q.events + r2.events == [Stopped(None)] && !r2.worker.isPlaying && r2.worker.alive
  {
    var p := SubmitPlay(Start, uri);
    DrainOrder(p.worker.(signaled := false), (k: nat) => Reachable, 0);
    var r1 := Wake(p.worker, (k: nat) => Reachable);
    var q := SubmitStop(r1.worker);
    DrainOrder(q.worker.(signaled := false), (k: nat) => Reachable, 0);
  }

  /** A stream that cannot be opened: Loading then Stopped with the error, never Playing,
      IsPlaying false and no source held. */
  lemma PlayUnreachable(uri: string, err: Player.Error)
    ensures var p := SubmitPlay(Start, uri);
            var env := (k: nat) => Player.Attempt(Player.Throws(err), Player.Ok, Player.Ok);
            var r := Wake(p.worker, env);
            p.events + r.events == [Loading(uri), Stopped(Some(err))] &&
            !r.worker.isPlaying && r.worker.engine.source == None && r.worker.alive
  {
    var p := SubmitPlay(Start, uri);
    var env := (k: nat) => Player.Attempt(Player.Throws(err), Player.Ok, Player.Ok);
    DrainOrder(p.worker.(signaled := false), env, 0);
  }

  /** Halting an idle worker ends it in a single wake cycle without any event. */
  lemma IdleHaltTerminates(env: nat -> Player.Attempt)
    ensures var h := SubmitHalt(Start);
            var r := Wake(h.worker, env);
            h.events == [] && r.events == [] && !r.worker.alive && r.worker.stack == [] &&
            r.worker.engine.output.released
  {
    var h := SubmitHalt(Start);
    DrainOrder(h.worker.(signaled := false), env, 0);
  }
}
